=== FILE: README.md ===
# YouTube transcript downloader — a Dafny model

The repository has two command-line scripts: `main.py`, and an older copy in
`youtube_downloader/main.py`. Each fetches the subtitle transcript of one
YouTube video, optionally has it translated, and sends the text to the
clipboard, a file or the console. This project models the scripts' own logic
as pure functions over immutable data:

- **Video-ID resolution** (`VideoId`): the bare-ID test, the two URL regular
  expressions, and the validity check that `main` applies before any backend
  call. The expressions are written out as matchers with Python `re.search`
  semantics. The leftmost start position wins. Alternation branches are tried
  in the order listed. Greedy `.*` does not cross a newline.
- **Transcript selection** (`Selection`): the fallback chain of
  `get_transcript`. It runs over a snapshot of the backend (`Transcripts.Backend`).
  The snapshot holds the listed tracks in enumeration order, and for each track
  its code, its translation-language list (or the fact that enumerating it
  raises), its fetched content and the translations that succeed. The two
  copies of `get_transcript` behave identically, so one model serves both.
- **Rendering and dispatch** (`Output`, `MainCli`, `DownloaderCli`): entry
  text extraction over the three entry shapes, clipboard text (joined) and
  file text (line-terminated), the default file name, and each script's choice
  of destinations and exit status.

`Strings` holds the line operations (join, split, terminate) and `Outcomes`
holds `Option` and `Result` (`Raised` stands for any exception).

The main proved properties:

- A pattern match always yields a valid 11-character ID.
- The label reported for a transcript is never a code the delivered content
  is not in (`Selection.GetTranscript`).
- With translation, the source track is the requested code, then English,
  then the first listed track. Without translation the chain is different
  (`Selection.DirectFallbackOrder`). A request for English falls back to the
  backend's default preference, labelled `"unknown"`. Any other request stops
  after English.
- The eligibility check is fail-open.
- The file text is the clipboard text plus one final line break, and the
  clipboard text splits back into the entries' texts when none of them holds
  a line break.
- Each listed URL shape yields the ID it carries, and the first pattern
  outranks the second.
- The destination rules of both scripts hold.

Behaviours of the code worth knowing, which the model keeps as written:

- Without translation, a request for a language other than English has no
  third step. If neither that language nor English can be fetched, the call
  fails, even when other tracks exist (`Selection.NoThirdFallbackExample`).
  When English itself was requested and failed, the fallback result is always
  labelled `"unknown"`, never with the track's own code.
- On the translation path, the untranslated fallback fetch is not protected.
  If the source track itself cannot be fetched, the whole call fails.
- The fallback `get_transcript(video_id)` names no languages. The backend then
  applies its own default preference, which is not visible here. The model
  keeps that preference as a free field of the snapshot
  (`Backend.defaultPreference`). `Selection.EnglishDefaultNeverUnknown` shows
  that if the default is English only, the `"unknown"` branch can never
  succeed.
- `save_transcript_to_file` falls back to the default name
  `{video_id}_{language}.txt` when no path is given (main.py:77-78). Neither
  script ever reaches that fallback. `main.py` calls it only on branches where
  `output_file` is not `None` (lines 277 and 280). The downloader calls it only
  for a truthy path (youtube_downloader/main.py:189-190). `Output.DefaultFileName`
  and the default branch of `Output.SavePath` model code that neither entry
  point exercises.

## Model

| member | source | states |
|---|---|---|
| `VideoId.AlternativeAt` | main.py:17 | A match of the first pattern at a position is the group after the first listed URL marker (in alternation order) that is followed by 11 ID characters; there is no match only when no marker fits. |
| `VideoId.GreedyQueryPos` | main.py:18 | In `youtube.com/.*[?&]v=(...)`, greedy `.*` settles on the last place on the line where `?v=` or `&v=` plus the group matches; no match means no such place exists. |
| `VideoId.LeftmostFrom` | main.py:21-24 | `re.search` takes the leftmost start position where the pattern matches; no position before it matches, and none at all when it reports nothing. |
| `VideoId.Search` | main.py:21-24 | The search reports nothing exactly when the pattern matches at no position; otherwise its result is the group captured at the leftmost matching position, and always a valid 11-character ID. |
| `VideoId.ExtractVideoId` | main.py:9-39 | A well-formed bare ID is returned unchanged. Otherwise, if the first pattern matches anywhere, the result is its group at its leftmost match; if only the second matches, its group at its leftmost match; if neither matches, the URL-parse answer, or else the input itself. |
| `VideoId.KnownUrlYieldsId` | main.py:16-24 | Each of the five listed URL shapes (`youtube.com/watch?v=`, `youtu.be/`, `youtube.com/embed/`, `youtube.com/v/`, `m.youtube.com/watch?v=`) followed by an ID yields exactly that ID, whatever follows, provided the text before the marker holds no `y` or `m` (true of `https://`, `https://www.` and `http://`). |
| `VideoId.WatchUrlExample` | main.py:17-24 | `https://www.youtube.com/watch?v=dQw4w9WgXcQ&t=30s` resolves to `dQw4w9WgXcQ` and passes the check. |
| `VideoId.MobileUrlExample` | main.py:17-24 | `https://m.youtube.com/watch?v=dQw4w9WgXcQ` yields `dQw4w9WgXcQ`. |
| `VideoId.QueryOrderUrlYieldsId` | main.py:18-24 | A watch URL whose `v` parameter comes after others (`…/watch?feature=share&v=ID&t=30s`) misses the first pattern and yields the ID through the second. This holds when the text before the host holds no `y` or `m`, the query before `&v=` does not start with `v` and holds no `y`, `m` or line break, and the text after the ID holds no `.` or `v`. |
| `VideoId.SharedWatchUrlExample` | main.py:18-24 | `https://www.youtube.com/watch?feature=share&v=dQw4w9WgXcQ&t=30s` yields `dQw4w9WgXcQ` through the second pattern. |
| `VideoId.KnownShapeBeatsEarlierQuery` | main.py:16-24 | The first pattern outranks the second even when the second matches earlier: in `youtube.com/?v=AAAAAAAAAAA youtu.be/ID` the generic pattern matches at the start, yet the result is `ID`. |
| `VideoId.PatternMatchPassesCheck` | main.py:21-24 | When either URL pattern matches, extraction returns a valid 11-character ID, which the check in `main` accepts. |
| `VideoId.NoMatchReturnsInput` | main.py:38-39 | With no pattern match and no fallback answer the input comes back unchanged, and the check accepts it exactly when it is itself a valid ID. |
| `VideoId.IsVideoId` | main.py:11 | A video ID is exactly 11 characters of `[a-zA-Z0-9_-]`, as the comment and the error message describe it; the corrected check. |
| `VideoId.MatchesAnchoredIdPattern` | main.py:12 | `re.match(r'^[a-zA-Z0-9_-]{11}$', s)` as Python evaluates it: a valid ID, or a valid ID followed by one final newline. |
| `VideoId.ResolveVideoId` | main.py:232-246 | The ID `main` goes on with is exactly what `extract_video_id` returned. It is always 11 characters of the class, and `main` stops exactly when the extraction is not such an ID. A valid bare ID is used as given, and a rejected input is never a valid bare ID. When neither pattern matches, the URL-parse answer is used exactly when it is a valid ID. Without a URL-parse answer, a non-ID input is used only through a pattern match. |
| `VideoId.TrailingNewlinePassesCheck` | main.py:235 | The validator's pattern, with Python's reading of `$`, accepts `"dQw4w9WgXcQ\n"`, which is not an 11-character ID. |
| `VideoId.ExtractVideoIdAsWritten` | main.py:12-13 | The bare-ID test as written changes extraction only for an ID followed by a final newline, which it returns unchanged; on every other input it agrees with the corrected extraction. |
| `VideoId.ResolveVideoIdAsWritten` | main.py:232-235 | The check as written guarantees only the anchored pattern, and any input that pattern accepts is handed on unchanged. It differs from the corrected pipeline only by handing on an ID followed by a final newline, and that string is always the input itself or the URL-parse answer. |
| `VideoId.AsWrittenResolvesTrailingNewline` | main.py:232-235 | As written, `"dQw4w9WgXcQ\n"` is accepted and handed on as the video ID; the corrected check rejects it. |
| `Transcripts.EntryText` | main.py:102-112 | An entry's text is its `text` attribute, else its dictionary `'text'` value, else the string conversion of the whole entry. |
| `Transcripts.TranslationCode` | main.py:167-173 | The code read from a translation-language element: its `language_code` attribute, else its dictionary `'language_code'` value, else none. |
| `Selection.FindTrack` | main.py:137 | Looking a code up finds a track exactly when one has that code, and then the first one in listing order. |
| `Selection.FindPreferred` | youtube_downloader/main.py:137 | A preference lookup returns a track whose code is in the preference list, the first track with the first code when there is one, and nothing only when no track has any listed code. |
| `Selection.FetchPreferred` | main.py:199 | A fetch by preference succeeds only when the listing succeeds and a track with a preferred code has that content; it fails when the listing fails. |
| `Selection.FetchDirect` | main.py:197-216 | Without translation the label is the requested code, or `"en"` when something else was requested, or `"unknown"` when `"en"` was requested; any other label is the code of a listed track whose own fetched content was delivered, never a translation. |
| `Selection.DirectFallbackOrder` | main.py:196-216 | In terms of the listed tracks: the first track with the requested code is delivered under that code when its content fetches; otherwise, for another code, the first `"en"` track's content under `"en"`, and failure when that does not fetch either; for an English request, the first track with the backend's first default code, labelled `"unknown"`; a listing failure fails. |
| `Selection.NoThirdFallbackExample` | main.py:202-209 | A `"de"` request on a video with only a fetchable French track fails: there is no third fallback after English. |
| `Selection.EnglishDefaultNeverUnknown` | main.py:210-216 | If the backend's default preference is English only, a successful English request is always labelled `"en"`. |
| `Selection.ChooseSource` | main.py:128-158 | The source is the first track with the requested code, else the first `"en"` track (only when another code was requested), else the first track; only an empty listing fails; `actual_language` always equals the chosen track's code. |
| `Selection.ListsCode` | main.py:165-177 | The target is found exactly when some element of the translation-language list carries that code. |
| `Selection.TranslationEligible` | youtube_downloader/main.py:101-118 | Translation is eligible when the list names the target, and always when enumerating the list raises (fail-open). |
| `Selection.FetchTranslated` | main.py:130-194 | With translation a result is only produced from a non-empty successful listing, and the chosen source track carries it: its translation under the target code, or its own content under its own code. |
| `Selection.TranslationRequested` | main.py:132 | `if translate_to:` acts only on a present, non-empty target. |
| `Selection.GetTranscript` | main.py:126-219 | Whatever path is taken, the reported language reflects the content delivered: a listed track carries that content under that code (its own content, or its translation to that code), unless the label is the `"unknown"` placeholder. With a truthy `translate_to` the label is the target or a listed track's code; otherwise it is the requested code, `"en"` or `"unknown"`. |
| `Selection.TranslationSourceOrder` | youtube_downloader/main.py:66-96 | With translation an empty listing fails, and an untranslated result carries the chosen source track's own code. |
| `Selection.TranslationEligibility` | youtube_downloader/main.py:99-132 | A listed (or unlistable) target that translates is delivered under the target code. An unlisted target, or a failed translation, yields the untranslated content under the track's code, or a failure when that fetch fails too. |
| `Selection.EmptyTargetIsNoTranslation` | main.py:132 | An empty translation target behaves exactly like no translation. |
| `Selection.ReportedLanguage` | main.py:263-265 | The relabelling after a translation never changes the language. |
| `Strings.NextNewline` | main.py:18 | The first line break at or after a position (or the end), with none before it: the furthest `.*` can reach. |
| `Strings.JoinLines` | main.py:113 | `'\n'.join(lines)`: a break between lines and none after the last; `Strings.SplitJoinRoundTrip` shows splitting undoes it. |
| `Strings.TerminatedLines` | main.py:82-92 | Writing each line followed by a break: empty exactly for no lines, otherwise ending in a break. |
| `Strings.TerminatedIsJoinedPlusBreak` | main.py:86 | Writing each line followed by a break gives the joined text plus one final break, and nothing for no lines. |
| `Strings.SplitJoinRoundTrip` | main.py:113 | Splitting the joined text on line breaks gives back the lines whenever the list is non-empty and no line contains a break. |
| `Output.ClipboardText` | main.py:99-113 | The clipboard text is empty for an empty transcript and, for a non-empty one whose entry texts hold no line break, splits back into exactly those texts in order. |
| `Output.FileText` | main.py:82-92 | The file text is empty exactly for an empty transcript and otherwise ends in a line break. |
| `Output.FileIsClipboardPlusBreak` | main.py:80-92 | The file text is the clipboard text plus one final line break, and empty for an empty transcript. |
| `Output.RenderingExample` | main.py:99-113 | `["a", "b"]` gives `"a\nb"` on the clipboard and `"a\nb\n"` in the file; mixed entry shapes render their texts. |
| `Output.DefaultFileName` | main.py:77-78 | For a well-formed ID, the default name `{video_id}_{language}.txt` gives back both the ID and the language. |
| `Output.SavePath` | youtube_downloader/main.py:40-46 | A given path is used as is; without one the default name, which is never empty and encodes the ID and the language. |
| `Output.CopyToClipboard` | main.py:115-124 | The clipboard is set only when the copy succeeds. It then holds `""` for an empty transcript and otherwise the file text without its final break, which splits back into the entries' texts when none holds a break. |
| `Output.SaveToFile` | main.py:75-97 | A file is written only when the write succeeds and the path is not empty, at the save path. It holds `""` for an empty transcript and otherwise the clipboard text plus a final break. |
| `MainCli.ChooseDestinations` | main.py:267-280 | The clipboard is written exactly when no file is named or `--clipboard` is set; a file is written exactly when one is named, at that path. |
| `MainCli.Emit` | main.py:268-280 | Each destination's write happens exactly when it is chosen and works, and a file only at a non-empty path; no transcript is printed. |
| `MainCli.RunMain` | main.py:221-284 | The exit status is 0 or 1, and a status-1 run writes nothing. |
| `MainCli.InvalidIdStopsEarly` | main.py:232-246 | An input that does not resolve to a valid ID exits 1 with no effects, whatever the backend, clipboard and file system do. |
| `MainCli.ListingExit` | main.py:252-257 | `--list` exits 0 exactly when the listing succeeds and writes no transcript. |
| `MainCli.ExitStatusReflectsFetch` | main.py:259-284 | The exit status is 0 exactly when a transcript is obtained; clipboard or file failures do not change it. |
| `MainCli.SuccessfulRunDestinations` | main.py:267-280 | The clipboard gets the joined text exactly when no file is named or `--clipboard` is set. A named non-empty path gets the line-terminated text. A clipboard failure does not stop the file write. |
| `DownloaderCli.WritesFile` | youtube_downloader/main.py:189 | `if output_file:` writes a file only for a present, non-empty path. |
| `DownloaderCli.RunDownloader` | youtube_downloader/main.py:159-207 | The exit status is 0 or 1; the clipboard is never used; a run that writes a file prints no transcript. |
| `DownloaderCli.VideoIdNotValidated` | youtube_downloader/main.py:161-168 | The ID is used as given: the run's outcome does not depend on whether it is well formed. |
| `DownloaderCli.FileOrConsole` | youtube_downloader/main.py:188-203 | A non-empty output path gets the file text and nothing is printed; otherwise the entries are printed one per line, which is the text the file would have held. |
| `DownloaderCli.EmptyPathDiffers` | youtube_downloader/main.py:189 | With an empty output path the downloader prints the transcript. The top-level script's `open("")` fails, so it writes no file and prints nothing. With `--clipboard` the transcript is still on the clipboard; without it the transcript goes nowhere. Both exit 0. |

## Findings

| source | as written | input that shows it | evidently intended | confidence | as-written member | corrected member |
|---|---|---|---|---|---|---|
| main.py:12, main.py:235 | `re.match(r'^[a-zA-Z0-9_-]{11}$', s)`; without MULTILINE, Python's `$` also matches before a final newline | `"dQw4w9WgXcQ\n"` passes both the bare-ID test and the validity check and is used as the video ID | accept exactly 11 characters of the class (`\Z` or `re.fullmatch`) | high for the regex semantics, not executed | `VideoId.ResolveVideoIdAsWritten` (shown by `VideoId.AsWrittenResolvesTrailingNewline`) | `VideoId.ResolveVideoId` (its result is always `IsVideoId`) |

The rest of the model uses the corrected test `VideoId.IsVideoId`.

## Left out

- The transcript backend (`list_transcripts`, `find_transcript`, `get_transcript`, `translate`, `fetch`) is network I/O. Its answers are inputs: a `Transcripts.Backend` snapshot per video.
- The fetch by preference assumes the library lists tracks and takes the first track with a preferred code, in enumeration order. The library is not part of this model.
- The `urlparse` / `parse_qs` fallback of `extract_video_id` (main.py:26-36) depends on library URL splitting, hostname handling and query decoding. It is the opaque input `urlFallback`. Its answer is always re-checked by the validity check.
- `list_available_languages` in both scripts only prints backend data. Only its effect on the exit status of `--list` is modelled: status 0 exactly when the listing succeeds.
- Clipboard writes, file writes, printing and `sys.exit`: only the destinations chosen, the exact strings produced and the exit status are modelled. A write either succeeds whole or leaves nothing; partial writes are not modelled. Status and error messages are not modelled.
- Whether a clipboard or file write succeeds is a flag of the run (`MainCli.World`), independent of the path, apart from the empty path, which `open` always refuses.
- MainCli.RunMain: uses the corrected ID test, so an input such as `"dQw4w9WgXcQ\n"` exits 1 here while `main.py` goes on with it (see Findings; `VideoId.ResolveVideoIdAsWritten` keeps the behaviour as written).
- `argparse` is replaced by an `Args` value. Exception types and messages are replaced by the single outcome `Raised`.
- Entry and translation-language values are assumed to have string fields. Python would turn a non-string `'text'` value into text in the file but fail the clipboard join; this is not modelled.
- Track display names and the generated/manual and translatable flags are used only by the listing, so they are not in `Transcripts.Track`.

=== FILE: DownloaderCli.dfy ===
/** `main` of the `youtube_downloader` package: the video ID is taken as
    given, and the transcript goes either to a file or, one entry per line,
    to the console. */
module DownloaderCli {
  import opened Outcomes
  import opened Strings
  import opened Transcripts
  import opened Output
  import Selection
  import MainCli

  datatype Args = Args(
    videoId: string,                // positional, used as given
    language: string,               // `--language`, "en" unless given
    translateTo: Option<string>,    // `--translate`
    list: bool,                     // `--list`
    output: Option<string>)         // `--output`

  /** `if output_file:` is a truthiness test: a present but empty path
      counts as absent. */
  predicate WritesFile(output: Option<string>) {
    output.Some? && output.value != ""
  }

  function RunDownloader(a: Args, b: Backend, fileWorks: bool): (r: Run)
    ensures r.exitStatus == 0 || r.exitStatus == 1
    ensures r.exitStatus == 1 ==> r.effects == NoEffects
    ensures r.effects.clipboard.None?
    ensures r.effects.file.Some? ==> r.effects.console == []
  {
    if a.list then Run(if b.listing.Ok? then 0 else 1, NoEffects)
    else
      match Selection.GetTranscript(b, a.language, a.translateTo)
      case Raised => Run(1, NoEffects)
      case Ok(delivery) =>
        var language := Selection.ReportedLanguage(a.translateTo, delivery.language);
        if WritesFile(a.output) then
          Run(0, Effects(None, SaveToFile(delivery.transcript, a.videoId, language, a.output, fileWorks), []))
        else
          Run(0, Effects(None, None, Texts(delivery.transcript)))
  }

  // ---------------------------------------------------------------------
  // Properties

  /** The ID is not checked: the outcome depends only on the backend, never
      on whether the given ID is well formed. */
  lemma VideoIdNotValidated(a: Args, b: Backend, fileWorks: bool)
    ensures RunDownloader(a, b, fileWorks).exitStatus == 0 <==>
              if a.list then b.listing.Ok? else Selection.GetTranscript(b, a.language, a.translateTo).Ok?
    ensures RunDownloader(a, b, fileWorks) == RunDownloader(a.(videoId := "not an id"), b, fileWorks)
  {
  }

  /** A non-empty path gets the file text and nothing is printed; otherwise
      each entry's text is printed on a line of its own, which puts on the
      console exactly the text the file would have held. */
  lemma FileOrConsole(a: Args, b: Backend, fileWorks: bool)
    requires !a.list && Selection.GetTranscript(b, a.language, a.translateTo).Ok?
    ensures var t := Selection.GetTranscript(b, a.language, a.translateTo).value.transcript;
            var e := RunDownloader(a, b, fileWorks).effects;
            && (WritesFile(a.output) ==> e.console == [])
            && (WritesFile(a.output) ==> (e.file.Some? <==> fileWorks))
            && (WritesFile(a.output) && e.file.Some? ==> e.file.value == FileWrite(a.output.value, FileText(t)))
            && (!WritesFile(a.output) ==> e.file.None? && TerminatedLines(e.console) == FileText(t))
  {
  }

  /** An empty `--output` path is sent to the console here, while the
      top-level script tries to open a file at it, which always fails: no
      file is written and nothing is printed, so without `--clipboard` the
      transcript ends up nowhere (with it, only the clipboard copy made
      before the failed open remains), though the run still exits with 0. */
  lemma EmptyPathDiffers(language: string, translateTo: Option<string>, b: Backend, clipboardFlag: bool, fileWorks: bool)
    requires Selection.GetTranscript(b, language, translateTo).Ok?
    ensures var t := Selection.GetTranscript(b, language, translateTo).value.transcript;
            var d := RunDownloader(Args("dQw4w9WgXcQ", language, translateTo, false, Some("")), b, fileWorks);
            d.exitStatus == 0 && d.effects.file.None? && TerminatedLines(d.effects.console) == FileText(t)
    ensures var t := Selection.GetTranscript(b, language, translateTo).value.transcript;
            var m := MainCli.RunMain(MainCli.Args("dQw4w9WgXcQ", language, translateTo, false, Some(""), clipboardFlag),
                                     MainCli.World(None, b, true, fileWorks));
            && m.exitStatus == 0 && m.effects.file.None? && m.effects.console == []
            && (m.effects.clipboard.Some? <==> clipboardFlag)
            && (clipboardFlag ==> m.effects.clipboard == Some(ClipboardText(t)))
  {
    var id := "dQw4w9WgXcQ";
    assert VideoId.IsVideoId(id);
    assert VideoId.ResolveVideoId(id, None) == Some(id);
  }
}

=== FILE: MainCli.dfy ===
/** `main` of the top-level script: resolve and check the video ID, then
    either report the listing outcome or fetch a transcript and send it to
    the clipboard, a file, or both. Argument parsing is replaced by an
    `Args` value; the outside world by a `World` value. */
module MainCli {
  import opened Outcomes
  import opened Transcripts
  import opened Output
  import VideoId
  import Selection

  datatype Args = Args(
    videoInput: string,
    language: string,               // `--language`, "en" unless given
    translateTo: Option<string>,    // `--translate`
    list: bool,                     // `--list`
    output: Option<string>,         // `--output`
    clipboard: bool)                // `--clipboard`

  /** Everything a run depends on besides its arguments: the URL-parse
      fallback's answer for the input, the backend snapshot for the video,
      and whether the clipboard and the file system accept writes. */
  datatype World = World(urlFallback: Option<string>, backend: Backend, clipboardWorks: bool, fileWorks: bool)

  /** Which destinations are written. */
  datatype Destinations = Destinations(clipboard: bool, file: Option<string>)

  /** The four-way branch on `output_file` and `--clipboard`, as written. */
  function ChooseDestinations(output: Option<string>, clipboardFlag: bool): (d: Destinations)
    ensures d.clipboard <==> output.None? || clipboardFlag
    ensures d.file.Some? <==> output.Some?
    ensures d.file == output
  {
    if output.None? && !clipboardFlag then Destinations(true, None)
    else if clipboardFlag && output.None? then Destinations(true, None)
    else if clipboardFlag && output.Some? then Destinations(true, output)
    else Destinations(false, output)
  }

  /** Writing to the chosen destinations; each write's failure is swallowed
      on its own. */
  function Emit(d: Destinations, t: Transcript, videoId: string, language: string, w: World): (e: Effects)
    ensures e.console == []
    ensures e.clipboard.Some? <==> d.clipboard && w.clipboardWorks
    ensures e.file.Some? <==> d.file.Some? && d.file.value != "" && w.fileWorks
  {
    Effects(
      if d.clipboard then CopyToClipboard(t, w.clipboardWorks) else None,
      if d.file.Some? then SaveToFile(t, videoId, language, d.file, w.fileWorks) else None,
      [])
  }

  function RunMain(a: Args, w: World): (r: Run)
    ensures r.exitStatus == 0 || r.exitStatus == 1
    ensures r.exitStatus == 1 ==> r.effects == NoEffects
  {
    match VideoId.ResolveVideoId(a.videoInput, w.urlFallback)
    case None => Run(1, NoEffects)
    case Some(videoId) =>
      if a.list then Run(if w.backend.listing.Ok? then 0 else 1, NoEffects)
      else
        match Selection.GetTranscript(w.backend, a.language, a.translateTo)
        case Raised => Run(1, NoEffects)
        case Ok(delivery) =>
          var language := Selection.ReportedLanguage(a.translateTo, delivery.language);
          Run(0, Emit(ChooseDestinations(a.output, a.clipboard), delivery.transcript, videoId, language, w))
  }

  // ---------------------------------------------------------------------
  // Properties

  /** An input that does not resolve to a well-formed ID ends the run with
      status 1 before any backend call: nothing about the backend, clipboard
      or file system matters. */
  lemma InvalidIdStopsEarly(a: Args, w1: World, w2: World)
    requires w1.urlFallback == w2.urlFallback
    requires !VideoId.IsVideoId(VideoId.ExtractVideoId(a.videoInput, w1.urlFallback))
    ensures RunMain(a, w1) == RunMain(a, w2) == Run(1, NoEffects)
  {
  }

  /** `--list` ends the run with status 0 exactly when the listing succeeds,
      and writes no transcript anywhere. */
  lemma ListingExit(a: Args, w: World)
    ensures a.list && VideoId.ResolveVideoId(a.videoInput, w.urlFallback).Some? ==>
              (RunMain(a, w).exitStatus == 0 <==> w.backend.listing.Ok?)
    ensures a.list ==> RunMain(a, w).effects == NoEffects
  {
  }

  /** The exit status is 0 exactly when the transcript is obtained; a failed
      clipboard or file write does not change it. */
  lemma ExitStatusReflectsFetch(a: Args, w: World)
    ensures !a.list && VideoId.ResolveVideoId(a.videoInput, w.urlFallback).Some? ==>
              (RunMain(a, w).exitStatus == 0 <==> Selection.GetTranscript(w.backend, a.language, a.translateTo).Ok?)
    ensures RunMain(a, w).exitStatus == RunMain(a, w.(clipboardWorks := !w.clipboardWorks, fileWorks := !w.fileWorks)).exitStatus
  {
  }

  /** A successful run puts the delivered transcript on the clipboard
      exactly when no file is named or `--clipboard` is set, writes a file
      exactly when a non-empty path is named (at that path, never the
      default name; `open("")` always fails), and a clipboard failure does
      not stop the file write. */
  lemma SuccessfulRunDestinations(a: Args, w: World)
    ensures RunMain(a, w).exitStatus == 0 && !a.list ==>
            var t := Selection.GetTranscript(w.backend, a.language, a.translateTo).value.transcript;
            var e := RunMain(a, w).effects;
            && (e.clipboard.Some? <==> (a.output.None? || a.clipboard) && w.clipboardWorks)
            && (e.clipboard.Some? ==> e.clipboard.value == ClipboardText(t))
            && (e.file.Some? <==> a.output.Some? && a.output.value != "" && w.fileWorks)
            && (e.file.Some? ==> e.file.value == FileWrite(a.output.value, FileText(t)))
            && e.file == RunMain(a, w.(clipboardWorks := false)).effects.file
  {
  }
}

=== FILE: Outcomes.dfy ===
/** Failure-carrying wrappers shared by the whole model. */
module Outcomes {

  /** A value that may be absent (Python's `None`). */
  datatype Option<T> = None | Some(value: T)

  /** What a call into the transcript backend produced: a value, or a raised
      exception. The exception's type and message are not modelled. */
  datatype Result<T> = Ok(value: T) | Raised
}

=== FILE: Output.dfy ===
/** Rendering a transcript for its destinations, and the effects a run has
    on them: the clipboard text (`format_transcript_text` and
    `copy_transcript_to_clipboard`), the file text and default file name
    (`save_transcript_to_file`), and the console lines. The writes themselves
    are I/O; whether each one succeeds is an input. */
module Output {
  import opened Outcomes
  import opened Strings
  import opened Transcripts
  import VideoId

  /** The per-entry texts, in transcript order. */
  function Texts(t: Transcript): (r: seq<string>)
    ensures |r| == |t|
    ensures forall i :: 0 <= i < |t| ==> r[i] == EntryText(t[i])
  {
    seq(|t|, i requires 0 <= i < |t| => EntryText(t[i]))
  }

  /** The clipboard text: the entries' texts joined with line breaks, none
      after the last. It reads back as the entries' texts when none of them
      holds a line break (an empty transcript gives "", which reads back as
      one empty line). */
  function ClipboardText(t: Transcript): (r: string)
    ensures |t| == 0 ==> r == ""
    ensures |t| > 0 && TextsWithoutBreaks(t) ==> SplitLines(r) == Texts(t)
  {
    SplitJoinRoundTrip(Texts(t));
    JoinLines(Texts(t))
  }

  /** The file text: every entry's text followed by a line break, so it is
      empty exactly for an empty transcript and otherwise ends in a break. */
  function FileText(t: Transcript): (r: string)
    ensures r == "" <==> |t| == 0
    ensures |t| > 0 ==> r[|r| - 1] == '\n'
  {
    TerminatedLines(Texts(t))
  }

  /** The file holds the clipboard text plus one final line break (and
      nothing at all for an empty transcript). */
  lemma FileIsClipboardPlusBreak(t: Transcript)
    ensures |t| == 0 ==> FileText(t) == "" && ClipboardText(t) == ""
    ensures |t| > 0 ==> FileText(t) == ClipboardText(t) + "\n"
  {
    TerminatedIsJoinedPlusBreak(Texts(t));
  }

  predicate TextsWithoutBreaks(t: Transcript) {
    forall i :: 0 <= i < |t| ==> HasNoNewline(EntryText(t[i]))
  }

  /** `["a", "b"]` gives "a\nb" on the clipboard and "a\nb\n" in the file,
      whatever shape each entry has. */
  lemma RenderingExample()
    ensures ClipboardText([Snippet("a"), Snippet("b")]) == "a\nb"
    ensures FileText([Snippet("a"), Snippet("b")]) == "a\nb\n"
    ensures ClipboardText([Snippet("a"), Record(map["text" := "b"], "{'text': 'b'}"), Opaque("c")]) == "a\nb\nc"
  {
    assert Texts([Snippet("a"), Snippet("b")]) == ["a", "b"];
    assert Texts([Snippet("a"), Record(map["text" := "b"], "{'text': 'b'}"), Opaque("c")]) == ["a", "b", "c"];
  }

  // ---------------------------------------------------------------------
  // File names

  /** The ID and language read back from a default file name built from a
      well-formed ID. */
  function ParseDefaultFileName(name: string): (r: Option<(string, string)>)
    ensures r.Some? ==> VideoId.IsVideoId(r.value.0)
  {
    if |name| >= VideoId.IdLength + 5 && VideoId.IsVideoId(name[..VideoId.IdLength])
       && name[VideoId.IdLength] == '_' && name[|name| - 4..] == ".txt"
    then Some((name[..VideoId.IdLength], name[VideoId.IdLength + 1..|name| - 4]))
    else None
  }

  /** `f"{video_id}_{language}.txt"`, the path used when none is given. For
      a well-formed ID the name determines both its parts. */
  function DefaultFileName(videoId: string, language: string): (r: string)
    ensures VideoId.IsVideoId(videoId) ==> ParseDefaultFileName(r) == Some((videoId, language))
  {
    var name := videoId + "_" + language + ".txt";
    assert name[..|videoId|] == videoId;
    assert name[|name| - 4..] == ".txt";
    assert name[|videoId| + 1..|name| - 4] == language;
    name
  }

  /** The path `save_transcript_to_file` opens. */
  function SavePath(outputFile: Option<string>, videoId: string, language: string): (r: string)
    ensures outputFile.Some? ==> r == outputFile.value
    ensures outputFile.None? ==> r != ""
    ensures outputFile.None? && VideoId.IsVideoId(videoId) ==> ParseDefaultFileName(r) == Some((videoId, language))
  {
    match outputFile
    case Some(path) => path
    case None => DefaultFileName(videoId, language)
  }

  // ---------------------------------------------------------------------
  // Effects of a run

  datatype FileWrite = FileWrite(path: string, contents: string)

  /** What a run leaves behind: the clipboard contents it set, the file it
      wrote, and the transcript lines it printed (status messages are not
      modelled). */
  datatype Effects = Effects(clipboard: Option<string>, file: Option<FileWrite>, console: seq<string>)

  const NoEffects: Effects := Effects(None, None, [])

  /** A run: its exit status and its effects. */
  datatype Run = Run(exitStatus: nat, effects: Effects)

  /** `copy_transcript_to_clipboard`: the clipboard holds the clipboard text
      when the copy succeeds; a failure is reported and swallowed. */
  function CopyToClipboard(t: Transcript, clipboardWorks: bool): (r: Option<string>)
    ensures r.Some? <==> clipboardWorks
    ensures r.Some? && |t| == 0 ==> r.value == ""
    ensures r.Some? && |t| > 0 ==> r.value + "\n" == FileText(t)
    ensures r.Some? && |t| > 0 && TextsWithoutBreaks(t) ==> SplitLines(r.value) == Texts(t)
  {
    FileIsClipboardPlusBreak(t);
    if clipboardWorks then Some(ClipboardText(t)) else None
  }

  /** `save_transcript_to_file`: the file at SavePath holds the file text
      when the write succeeds; a failure is reported and swallowed. Opening
      the empty path always fails. */
  function SaveToFile(t: Transcript, videoId: string, language: string, outputFile: Option<string>, fileWorks: bool): (r: Option<FileWrite>)
    ensures r.Some? <==> fileWorks && SavePath(outputFile, videoId, language) != ""
    ensures r.Some? ==> r.value.path == SavePath(outputFile, videoId, language)
    ensures r.Some? && |t| == 0 ==> r.value.contents == ""
    ensures r.Some? && |t| > 0 ==> r.value.contents == ClipboardText(t) + "\n"
  {
    FileIsClipboardPlusBreak(t);
    var path := SavePath(outputFile, videoId, language);
    if fileWorks && path != "" then Some(FileWrite(path, FileText(t))) else None
  }
}

=== FILE: Selection.dfy ===
/** `get_transcript`: which track is fetched, whether it is translated, and
    the language code the result is labelled with. The two copies of the
    function in the repository are identical in behaviour, so one model
    serves both. */
module Selection {
  import opened Outcomes
  import opened Transcripts

  const English: string := "en"

  /** The label given to a transcript fetched with the backend's default preference. */
  const Unknown: string := "unknown"

  /** A fetched transcript together with the language code reported for it. */
  datatype Delivery = Delivery(transcript: Transcript, language: string)

  // ---------------------------------------------------------------------
  // Finding tracks

  predicate HasCode(tracks: seq<Track>, code: string) {
    exists j :: 0 <= j < |tracks| && tracks[j].code == code
  }

  /** `i` is the first track, in listing order, whose code is `code`. */
  predicate IsFirstWithCode(tracks: seq<Track>, code: string, i: nat) {
    i < |tracks| && tracks[i].code == code && forall j :: 0 <= j < i ==> tracks[j].code != code
  }

  function FindFrom(tracks: seq<Track>, code: string, i: nat): (r: Option<nat>)
    requires i <= |tracks|
    decreases |tracks| - i
    ensures r.Some? ==> i <= r.value < |tracks| && tracks[r.value].code == code
    ensures r.Some? ==> forall j :: i <= j < r.value ==> tracks[j].code != code
    ensures r.None? ==> forall j :: i <= j < |tracks| ==> tracks[j].code != code
  {
    if i == |tracks| then None
    else if tracks[i].code == code then Some(i)
    else FindFrom(tracks, code, i + 1)
  }

  /** Looking a single code up in the listing (`find_transcript([code])`):
      the first track with that code, or nothing. */
  function FindTrack(tracks: seq<Track>, code: string): (r: Option<nat>)
    ensures r.Some? <==> HasCode(tracks, code)
    ensures r.Some? ==> IsFirstWithCode(tracks, code, r.value)
  {
    FindFrom(tracks, code, 0)
  }

  /** Looking up a preference list (`find_transcript(codes)`): the codes are
      tried in order, each as in FindTrack. */
  function FindPreferred(tracks: seq<Track>, prefs: seq<string>): (r: Option<nat>)
    decreases |prefs|
    ensures r.Some? ==> r.value < |tracks| && tracks[r.value].code in prefs
    ensures r.None? ==> forall j :: 0 <= j < |tracks| ==> tracks[j].code !in prefs
    ensures |prefs| > 0 && HasCode(tracks, prefs[0]) ==> r.Some? && IsFirstWithCode(tracks, prefs[0], r.value)
  {
    if |prefs| == 0 then None
    else match FindTrack(tracks, prefs[0])
      case Some(i) => Some(i)
      case None =>
        var r := FindPreferred(tracks, prefs[1..]);
        assert forall c :: c in prefs <==> c == prefs[0] || c in prefs[1..];
        r
  }

  /** A fetch with a language preference (`YouTubeTranscriptApi.get_transcript`):
      list the tracks, find one by the preference, fetch it. Any of the three
      steps may raise. */
  function FetchPreferred(b: Backend, prefs: seq<string>): (r: Result<Transcript>)
    ensures r.Ok? ==> b.listing.Ok?
    ensures r.Ok? ==> exists i :: 0 <= i < |b.listing.value| && b.listing.value[i].code in prefs && b.listing.value[i].content == r
    ensures b.listing.Raised? || |prefs| == 0 ==> r.Raised?
  {
    match b.listing
    case Raised => Raised
    case Ok(tracks) =>
      match FindPreferred(tracks, prefs)
      case None => Raised
      case Some(i) => tracks[i].content
  }

  // ---------------------------------------------------------------------
  // Without translation

  /** The chain when no translation is requested: the requested language;
      then English if something else was requested; or, when English itself
      was requested, the backend's default preference, labelled "unknown".
      There is no third step after English. */
  function FetchDirect(b: Backend, language: string): (r: Result<Delivery>)
    ensures r.Ok? && r.value.language != language ==>
              || (language != English && r.value.language == English)
              || (language == English && r.value.language == Unknown)
    ensures r.Ok? ==> Honest(b, r.value)
    ensures r.Ok? && r.value.language != Unknown ==>
              b.listing.Ok? && exists i :: 0 <= i < |b.listing.value| && b.listing.value[i].code == r.value.language
                                          && b.listing.value[i].content == Ok(r.value.transcript)
  {
    match FetchPreferred(b, [language])
    case Ok(t) => Ok(Delivery(t, language))
    case Raised =>
      if language != English then
        match FetchPreferred(b, [English])
        case Ok(t) => Ok(Delivery(t, English))
        case Raised => Raised
      else
        match FetchPreferred(b, b.defaultPreference)
        case Ok(t) => Ok(Delivery(t, Unknown))
        case Raised => Raised
  }

  // ---------------------------------------------------------------------
  // With translation

  /** The track the translation starts from, with the value `actual_language`
      holds once it is found. */
  datatype Source = Source(index: nat, actual: string)

  /** `next(iter(transcript_list))`: the first listed track; raises on an
      empty listing. */
  function FirstListed(tracks: seq<Track>): (r: Option<Source>)
    ensures r.Some? <==> |tracks| > 0
    ensures r.Some? ==> r.value.index == 0 && r.value.actual == tracks[0].code
  {
    if |tracks| == 0 then None else Some(Source(0, tracks[0].code))
  }

  /** The source track: the requested code, then English (only when
      something else was requested), then the first listed track. The
      label the program keeps always is the chosen track's own code. */
  function ChooseSource(tracks: seq<Track>, language: string): (r: Option<Source>)
    ensures r.None? <==> |tracks| == 0
    ensures r.Some? ==> r.value.index < |tracks| && r.value.actual == tracks[r.value.index].code
    ensures HasCode(tracks, language) ==> r.Some? && IsFirstWithCode(tracks, language, r.value.index)
    ensures !HasCode(tracks, language) && language != English && HasCode(tracks, English) ==>
              r.Some? && IsFirstWithCode(tracks, English, r.value.index)
    ensures !HasCode(tracks, language) && (language == English || !HasCode(tracks, English)) && r.Some? ==>
              r.value.index == 0
  {
    match FindTrack(tracks, language)
    case Some(i) => Some(Source(i, language))
    case None =>
      if language != English then
        match FindTrack(tracks, English)
        case Some(i) => Some(Source(i, English))
        case None => FirstListed(tracks)
      else FirstListed(tracks)
  }

  /** Some element of the list carries the code `target`. */
  function ListsCode(langs: seq<TranslationLanguage>, target: string): (r: bool)
    ensures r <==> exists k :: 0 <= k < |langs| && TranslationCode(langs[k]) == Some(target)
  {
    if |langs| == 0 then false
    else if TranslationCode(langs[0]) == Some(target) then true
    else
      var r := ListsCode(langs[1..], target);
      assert forall k :: 1 <= k < |langs| ==> langs[k] == langs[1..][k - 1];
      r
  }

  /** The eligibility check, fail-open: when the list cannot be enumerated
      the translation is attempted anyway. */
  function TranslationEligible(langs: Option<seq<TranslationLanguage>>, target: string): (r: bool)
    ensures langs.None? ==> r
    ensures langs.Some? ==> (r <==> exists k :: 0 <= k < |langs.value| && TranslationCode(langs.value[k]) == Some(target))
  {
    match langs
    case None => true
    case Some(ls) => ListsCode(ls, target)
  }

  /** The translation path. A translation that is not eligible, or whose
      `translate`/`fetch` raises, falls back to fetching the source track
      untranslated under its own code; if that fetch raises too, so does the
      whole call (the program fetches it a second time inside its handler,
      which in a snapshot gives the same outcome). */
  function FetchTranslated(b: Backend, language: string, target: string): (r: Result<Delivery>)
    ensures r.Ok? ==> b.listing.Ok? && |b.listing.value| > 0
    ensures r.Ok? && r.value.language != target ==> r.value.language == ChooseSource(b.listing.value, language).value.actual
    ensures r.Ok? ==> Carries(b.listing.value[ChooseSource(b.listing.value, language).value.index], r.value)
    ensures r.Ok? ==> Honest(b, r.value)
  {
    match b.listing
    case Raised => Raised
    case Ok(tracks) =>
      match ChooseSource(tracks, language)
      case None => Raised
      case Some(src) =>
        var track := tracks[src.index];
        if TranslationEligible(track.translationLanguages, target) && target in track.translations then
          Ok(Delivery(track.translations[target], target))
        else
          match track.content
          case Ok(t) => Ok(Delivery(t, src.actual))
          case Raised => Raised
  }

  // ---------------------------------------------------------------------
  // get_transcript

  /** `translate_to` is acted on only when truthy: present and non-empty. */
  predicate TranslationRequested(translateTo: Option<string>) {
    translateTo.Some? && translateTo.value != ""
  }

  /** The reported language always reflects the content delivered (see
      Honest); with a truthy `translate_to` it is the target or the source
      track's own code, and otherwise the requested code, "en" or "unknown". */
  function GetTranscript(b: Backend, language: string, translateTo: Option<string>): (r: Result<Delivery>)
    ensures r.Ok? ==> Honest(b, r.value)
    ensures r.Ok? && TranslationRequested(translateTo) ==>
              b.listing.Ok? && (r.value.language == translateTo.value || HasCode(b.listing.value, r.value.language))
    ensures r.Ok? && !TranslationRequested(translateTo) ==>
              r.value.language == language || r.value.language == English || r.value.language == Unknown
  {
    if TranslationRequested(translateTo) then FetchTranslated(b, language, translateTo.value)
    else FetchDirect(b, language)
  }

  /** The relabelling in `main` after a translation: it only ever assigns the
      value the label already has. */
  function ReportedLanguage(translateTo: Option<string>, actual: string): (r: string)
    ensures r == actual
  {
    if TranslationRequested(translateTo) && actual == translateTo.value then translateTo.value else actual
  }

  // ---------------------------------------------------------------------
  // Properties

  /** Track `t` holds `d`'s content under `d`'s label: as its own content
      under its own code, or as its translation to that code. */
  predicate Carries(t: Track, d: Delivery) {
    || (t.code == d.language && t.content == Ok(d.transcript))
    || (d.language in t.translations && t.translations[d.language] == d.transcript)
  }

  /** The reported language reflects the content actually delivered: some
      listed track carries it under that code, unless it is the "unknown"
      placeholder of the default-preference fetch. */
  predicate Honest(b: Backend, d: Delivery) {
    || d.language == Unknown
    || (b.listing.Ok? && exists i :: 0 <= i < |b.listing.value| && Carries(b.listing.value[i], d))
  }

  /** The first listed track with `code` fetches. */
  predicate Fetchable(tracks: seq<Track>, code: string) {
    exists i :: 0 <= i < |tracks| && IsFirstWithCode(tracks, code, i) && tracks[i].content.Ok?
  }

  /** A preference fetch whose first code is listed fetches the first track
      with that code. */
  lemma FetchFirstWithCode(b: Backend, tracks: seq<Track>, prefs: seq<string>, i: nat)
    requires b.listing == Ok(tracks) && |prefs| > 0 && IsFirstWithCode(tracks, prefs[0], i)
    ensures FetchPreferred(b, prefs) == tracks[i].content
  {
    assert HasCode(tracks, prefs[0]);
  }

  /** A single-code fetch fails when the first track with that code does not
      fetch, or there is none. */
  lemma UnfetchableFails(b: Backend, tracks: seq<Track>, code: string)
    requires b.listing == Ok(tracks) && !Fetchable(tracks, code)
    ensures FetchPreferred(b, [code]).Raised?
  {
    if HasCode(tracks, code) {
      var k := FindPreferred(tracks, [code]).value;
      assert IsFirstWithCode(tracks, code, k);
    }
  }

  /** Without translation, in terms of the listed tracks: the first track
      with the requested code, if its content fetches; otherwise the first
      `"en"` track when something else was requested (there is no further
      step); or, for an English request, the backend's default preference,
      labelled "unknown". A listing failure fails the call. */
  lemma DirectFallbackOrder(b: Backend, tracks: seq<Track>, language: string, i: nat, c: Transcript)
    ensures b.listing.Raised? ==> GetTranscript(b, language, None) == Raised
    ensures b.listing == Ok(tracks) && IsFirstWithCode(tracks, language, i) && tracks[i].content == Ok(c) ==>
              GetTranscript(b, language, None) == Ok(Delivery(c, language))
    ensures b.listing == Ok(tracks) && language != English && !Fetchable(tracks, language)
            && IsFirstWithCode(tracks, English, i) && tracks[i].content == Ok(c) ==>
              GetTranscript(b, language, None) == Ok(Delivery(c, English))
    ensures b.listing == Ok(tracks) && language != English && !Fetchable(tracks, language) && !Fetchable(tracks, English) ==>
              GetTranscript(b, language, None) == Raised
    ensures b.listing == Ok(tracks) && language == English && !Fetchable(tracks, English)
            && |b.defaultPreference| > 0 && IsFirstWithCode(tracks, b.defaultPreference[0], i) && tracks[i].content == Ok(c) ==>
              GetTranscript(b, language, None) == Ok(Delivery(c, Unknown))
  {
    if b.listing == Ok(tracks) {
      if IsFirstWithCode(tracks, language, i) {
        FetchFirstWithCode(b, tracks, [language], i);
      }
      if !Fetchable(tracks, language) {
        UnfetchableFails(b, tracks, language);
        if IsFirstWithCode(tracks, English, i) {
          FetchFirstWithCode(b, tracks, [English], i);
        }
        if !Fetchable(tracks, English) {
          UnfetchableFails(b, tracks, English);
        }
        if |b.defaultPreference| > 0 && IsFirstWithCode(tracks, b.defaultPreference[0], i) {
          FetchFirstWithCode(b, tracks, b.defaultPreference, i);
        }
      }
    }
  }

  /** If the backend's default preference is English only, the "unknown"
      label can never be produced: the default fetch repeats the English
      attempt that has just failed. */
  lemma EnglishDefaultNeverUnknown(b: Backend, translateTo: Option<string>)
    requires b.defaultPreference == [English]
    requires !TranslationRequested(translateTo)
    ensures GetTranscript(b, English, translateTo).Ok? ==> GetTranscript(b, English, translateTo).value.language == English
  {
  }

  /** A request for a language other than English fails when neither it nor
      English can be fetched, even though other tracks would fetch fine. */
  lemma NoThirdFallbackExample()
    ensures
      var french := Track("fr", None, Ok([Snippet("bonjour")]), map[]);
      var b := Backend(Ok([french]), ["fr"]);
      GetTranscript(b, "de", None) == Raised
  {
  }

  /** With translation, the track chosen as source and the label kept for
      it: requested code, then English, then the first listed track; the
      label is always that track's own code, and an empty listing fails. */
  lemma TranslationSourceOrder(b: Backend, language: string, target: string)
    requires target != "" && b.listing.Ok?
    ensures |b.listing.value| == 0 ==> GetTranscript(b, language, Some(target)) == Raised
    ensures var r := GetTranscript(b, language, Some(target));
            r.Ok? && r.value.language != target ==>
              var src := ChooseSource(b.listing.value, language).value;
              r.value.language == b.listing.value[src.index].code
  {
  }

  /** The eligibility decision and its consequences, for the chosen source
      track `t`: a listed target that translates is delivered under the
      target code; an unlisted target is never attempted, so the untranslated
      content is delivered under the track's code even if a translation
      would have worked; when the list cannot be enumerated the translation
      is attempted anyway. */
  lemma TranslationEligibility(b: Backend, language: string, target: string)
    requires target != "" && b.listing.Ok? && |b.listing.value| > 0
    ensures var t := b.listing.value[ChooseSource(b.listing.value, language).value.index];
            var r := GetTranscript(b, language, Some(target));
            && ((t.translationLanguages.None? || ListsCode(t.translationLanguages.value, target)) && target in t.translations ==>
                 r == Ok(Delivery(t.translations[target], target)))
            && (t.translationLanguages.Some? && !ListsCode(t.translationLanguages.value, target) ==>
                 r == (if t.content.Ok? then Ok(Delivery(t.content.value, t.code)) else Raised))
            && (target !in t.translations ==>
                 r == (if t.content.Ok? then Ok(Delivery(t.content.value, t.code)) else Raised))
  {
  }

  /** An empty translation target is falsy: the call behaves as if no
      translation had been asked for. */
  lemma EmptyTargetIsNoTranslation(b: Backend, language: string)
    ensures GetTranscript(b, language, Some("")) == GetTranscript(b, language, None)
  {
  }
}

=== FILE: Strings.dfy ===
/** Line-oriented string operations: Python's `"\n".join`, `str.split("\n")`,
    and writing each line followed by a line break. */
module Strings {

  /** The first newline at or after `b`, or `|s|` when there is none. */
  function NextNewline(s: string, b: nat): (e: nat)
    requires b <= |s|
    decreases |s| - b
    ensures b <= e <= |s|
    ensures e < |s| ==> s[e] == '\n'
    ensures forall k :: b <= k < e ==> s[k] != '\n'
  {
    if b == |s| || s[b] == '\n' then b else NextNewline(s, b + 1)
  }

  predicate HasNoNewline(s: string) {
    forall k :: 0 <= k < |s| ==> s[k] != '\n'
  }

  /** `"\n".join(lines)`: separators between lines, none after the last. */
  function JoinLines(lines: seq<string>): string {
    if |lines| == 0 then ""
    else if |lines| == 1 then lines[0]
    else lines[0] + "\n" + JoinLines(lines[1..])
  }

  /** Every line followed by "\n", as a text file writer or `print` emits them. */
  function TerminatedLines(lines: seq<string>): (r: string)
    ensures |lines| == 0 <==> r == ""
    ensures |lines| > 0 ==> r[|r| - 1] == '\n'
  {
    if |lines| == 0 then "" else lines[0] + "\n" + TerminatedLines(lines[1..])
  }

  /** `s.split("\n")`: the pieces between line breaks; never empty. */
  function SplitLines(s: string): (r: seq<string>)
    decreases |s|
    ensures |r| > 0
  {
    var k := NextNewline(s, 0);
    if k == |s| then [s] else [s[..k]] + SplitLines(s[k + 1..])
  }

  /** Terminating every line gives the joined text plus one final break, and
      the empty string for no lines. */
  lemma {:induction false} TerminatedIsJoinedPlusBreak(lines: seq<string>)
    ensures |lines| == 0 ==> TerminatedLines(lines) == "" && JoinLines(lines) == ""
    ensures |lines| > 0 ==> TerminatedLines(lines) == JoinLines(lines) + "\n"
    decreases |lines|
  {
    if |lines| > 1 {
      TerminatedIsJoinedPlusBreak(lines[1..]);
      calc {
        TerminatedLines(lines);
        lines[0] + "\n" + TerminatedLines(lines[1..]);
        lines[0] + "\n" + (JoinLines(lines[1..]) + "\n");
        (lines[0] + "\n" + JoinLines(lines[1..])) + "\n";
      }
    }
  }

  /** The first line break of `a + "\n" + c`, when `a` has none, is right after `a`. */
  lemma SplitAtFirstBreak(a: string, c: string)
    requires HasNoNewline(a)
    ensures NextNewline(a + "\n" + c, 0) == |a|
    ensures (a + "\n" + c)[..|a|] == a && (a + "\n" + c)[|a| + 1..] == c
  {
    var s := a + "\n" + c;
    assert s[|a|] == '\n';
    assert forall k :: 0 <= k < |a| ==> s[k] == a[k];
  }

  /** Splitting undoes joining when no line holds a line break of its own
      (a non-empty list is needed: `[]` and `[""]` both join to ""). */
  lemma {:induction false} SplitJoinRoundTrip(lines: seq<string>)
    ensures |lines| > 0 && (forall i :: 0 <= i < |lines| ==> HasNoNewline(lines[i])) ==>
              SplitLines(JoinLines(lines)) == lines
    decreases |lines|
  {
    if |lines| == 1 && HasNoNewline(lines[0]) {
      assert NextNewline(lines[0], 0) == |lines[0]|;
    } else if |lines| > 1 && forall i :: 0 <= i < |lines| ==> HasNoNewline(lines[i]) {
      var rest := lines[1..];
      assert HasNoNewline(lines[0]);
      SplitAtFirstBreak(lines[0], JoinLines(rest));
      assert forall i :: 0 <= i < |rest| ==> HasNoNewline(rest[i]) by {
        forall i | 0 <= i < |rest| ensures HasNoNewline(rest[i]) {
          assert rest[i] == lines[i + 1];
        }
      }
      SplitJoinRoundTrip(rest);
      assert lines == [lines[0]] + rest;
    }
  }
}

=== FILE: Transcripts.dfy ===
/** The data the transcript backend hands over, normalised into datatypes.
    The backend itself is network I/O; a `Backend` value is a snapshot of
    what each of its calls would produce for one video. */
module Transcripts {
  import opened Outcomes

  /** One timed subtitle entry, in one of the shapes the program tolerates.
      Start time and duration are never used and are not modelled. */
  datatype Entry =
    | Snippet(text: string)                               // an object with a `text` attribute
    | Record(fields: map<string, string>, shown: string)  // a dictionary; `shown` is `str(entry)`
    | Opaque(shown: string)                               // anything else; `shown` is `str(entry)`

  /** The text of an entry: the `text` attribute, else the dictionary's
      `'text'` key, else the string conversion of the whole entry. */
  function EntryText(e: Entry): string {
    match e
    case Snippet(t) => t
    case Record(fields, shown) => if "text" in fields then fields["text"] else shown
    case Opaque(shown) => shown
  }

  type Transcript = seq<Entry>

  /** One element of a track's translation-language list, in the shapes the
      eligibility check tolerates. */
  datatype TranslationLanguage =
    | LanguageObject(languageCode: string)        // an object with a `language_code` attribute
    | LanguageRecord(fields: map<string, string>) // a dictionary
    | UnknownShape                                // anything else

  /** The code the eligibility check reads from a list element, if any. */
  function TranslationCode(l: TranslationLanguage): Option<string> {
    match l
    case LanguageObject(c) => Some(c)
    case LanguageRecord(fields) => if "language_code" in fields then Some(fields["language_code"]) else None
    case UnknownShape => None
  }

  /** One transcript track of the video.
      - `translationLanguages`: None when enumerating the list raises (a
        raise part-way through the list has the same effect on the one
        place that reads it, see Selection.TranslationEligible);
      - `content`: what `fetch()` produces;
      - `translations`: the targets for which `translate(code).fetch()`
        succeeds, with the content produced; for any other code one of the
        two calls raises. */
  datatype Track = Track(
    code: string,
    translationLanguages: Option<seq<TranslationLanguage>>,
    content: Result<Transcript>,
    translations: map<string, Transcript>)

  /** The backend as seen for one video.
      - `listing`: what listing the video's tracks produces, in the
        backend's enumeration order;
      - `defaultPreference`: the language preference the backend applies
        when a fetch names none; the library's choice is not visible in this
        repository and is left free. */
  datatype Backend = Backend(listing: Result<seq<Track>>, defaultPreference: seq<string>)
}

=== FILE: VideoId.dfy ===
/** Video-ID extraction (`extract_video_id`) and the validity check that
    `main` applies to its result before any backend call.

    The two URL regular expressions are written out as hand-coded matchers
    with the semantics of Python's `re.search`: the match that starts at the
    leftmost position wins, an alternation tries its branches in the order
    listed, and `.*` is greedy and does not cross a newline. */
module VideoId {
  import opened Outcomes
  import opened Strings

  const IdLength: nat := 11

  /** The character class `[a-zA-Z0-9_-]`. */
  predicate IsIdChar(c: char) {
    ('a' <= c <= 'z') || ('A' <= c <= 'Z') || ('0' <= c <= '9') || c == '_' || c == '-'
  }

  predicate AllIdChars(s: string) {
    forall i :: 0 <= i < |s| ==> IsIdChar(s[i])
  }

  /** A well-formed video ID: exactly 11 characters of the class. */
  predicate IsVideoId(s: string) {
    |s| == IdLength && AllIdChars(s)
  }

  /** The ID-plus-final-newline shape that the anchored pattern accepts on
      top of well-formed IDs. */
  predicate IdWithFinalNewline(s: string) {
    |s| == IdLength + 1 && IsVideoId(s[..IdLength]) && s[IdLength] == '\n'
  }

  /** The anchored pattern `^[a-zA-Z0-9_-]{11}$` as Python's `re.match`
      reads it: without the MULTILINE flag `$` also matches just before a
      newline that ends the string. */
  predicate MatchesAnchoredIdPattern(s: string) {
    IsVideoId(s) || IdWithFinalNewline(s)
  }

  /** The anchored pattern lets an ID with a trailing newline through, so the
      check in `main` as written does not guarantee an 11-character ID. */
  lemma TrailingNewlinePassesCheck()
    ensures MatchesAnchoredIdPattern("dQw4w9WgXcQ\n")
    ensures !IsVideoId("dQw4w9WgXcQ\n")
  {
    var s := "dQw4w9WgXcQ\n";
    assert s[..IdLength] == "dQw4w9WgXcQ";
  }

  // ---------------------------------------------------------------------
  // Pattern building blocks

  /** `s` contains `m` starting at position `p`. */
  predicate StartsWithAt(s: string, p: nat, m: string) {
    p + |m| <= |s| && s[p..p + |m|] == m
  }

  /** The group `([a-zA-Z0-9_-]{11})` read at position `k`, if it is there. */
  function IdAt(s: string, k: nat): (r: Option<string>)
    ensures r.Some? <==> k + IdLength <= |s| && AllIdChars(s[k..k + IdLength])
    ensures r.Some? ==> IsVideoId(r.value) && r.value == s[k..k + IdLength]
  {
    if k + IdLength <= |s| && AllIdChars(s[k..k + IdLength]) then Some(s[k..k + IdLength]) else None
  }

  /** The branches of the first pattern's alternation, in the order listed:
      `youtube.com/watch?v=`, `youtu.be/`, `youtube.com/embed/`,
      `youtube.com/v/`, `m.youtube.com/watch?v=`. */
  const KnownMarkers: seq<string> :=
    ["youtube.com/watch?v=", "youtu.be/", "youtube.com/embed/", "youtube.com/v/", "m.youtube.com/watch?v="]

  /** The literal prefix of the second pattern. */
  const QueryHost: string := "youtube.com/"

  /** Branch `m` of an alternation followed by the group matches at `p`. */
  predicate BranchFits(s: string, p: nat, m: string) {
    StartsWithAt(s, p, m) && IdAt(s, p + |m|).Some?
  }

  /** The alternation `(?:m1|m2|...)` followed by the group, anchored at `p`:
      the group after the first branch (in list order) that fits. */
  function AlternativeAt(s: string, p: nat, markers: seq<string>): (r: Option<string>)
    decreases |markers|
    ensures r.Some? ==> IsVideoId(r.value)
    ensures r.Some? ==> exists j :: 0 <= j < |markers| && BranchFits(s, p, markers[j]) && IdAt(s, p + |markers[j]|) == r
                                   && forall j' :: 0 <= j' < j ==> !BranchFits(s, p, markers[j'])
    ensures r.None? ==> forall j :: 0 <= j < |markers| ==> !BranchFits(s, p, markers[j])
  {
    if |markers| == 0 then None
    else if BranchFits(s, p, markers[0]) then IdAt(s, p + |markers[0]|)
    else
      var r := AlternativeAt(s, p, markers[1..]);
      assert forall j :: 1 <= j < |markers| ==> markers[j] == markers[1..][j - 1];
      r
  }

  /** `[?&]v=` followed by the group, anchored at `q`. */
  function QueryAt(s: string, q: nat): (r: Option<string>)
    ensures r.Some? ==> IsVideoId(r.value)
  {
    if q + 3 <= |s| && (s[q] == '?' || s[q] == '&') && s[q + 1] == 'v' && s[q + 2] == '=' then IdAt(s, q + 3)
    else None
  }

  /** No newline in `s[b..q]`: `.*` can stretch from `b` to `q`. */
  predicate NoNewlineBetween(s: string, b: nat, q: nat)
    requires b <= q <= |s|
  {
    forall k :: b <= k < q ==> s[k] != '\n'
  }

  /** `.*` run from `b` can stop at `q` and the rest of `.*[?&]v=(...)` then matches. */
  predicate QueryCandidate(s: string, b: nat, q: nat) {
    b <= q <= |s| && NoNewlineBetween(s, b, q) && QueryAt(s, q).Some?
  }

  /** Scanning down from `k - 1` to `b`: the largest position in `[b, k)` at
      which `[?&]v=(...)` matches. */
  function LastQueryBelow(s: string, b: nat, k: nat): (r: Option<nat>)
    requires b <= k <= |s|
    decreases k - b
    ensures r.Some? ==> b <= r.value < k && QueryAt(s, r.value).Some?
    ensures r.Some? ==> forall q :: r.value < q < k ==> QueryAt(s, q).None?
    ensures r.None? ==> forall q :: b <= q < k ==> QueryAt(s, q).None?
  {
    if k == b then None
    else if QueryAt(s, k - 1).Some? then Some(k - 1)
    else LastQueryBelow(s, b, k - 1)
  }

  /** Where greedy `.*` followed by `[?&]v=(...)` settles when started at `b`:
      the LAST candidate, since backtracking gives characters back one at a
      time from the end of the line. */
  function GreedyQueryPos(s: string, b: nat): (r: Option<nat>)
    requires b <= |s|
    ensures r.Some? ==> QueryCandidate(s, b, r.value)
    ensures r.Some? ==> forall q :: r.value < q <= |s| ==> !QueryCandidate(s, b, q)
    ensures r.None? ==> forall q :: b <= q <= |s| ==> !QueryCandidate(s, b, q)
  {
    var e := NextNewline(s, b);  // the furthest `.*` can reach
    assert QueryAt(s, e).None?;
    var r := LastQueryBelow(s, b, e);
    forall q | b <= q <= |s| && e < q
      ensures !NoNewlineBetween(s, b, q)
    {
      assert s[e] == '\n';
    }
    r
  }

  // ---------------------------------------------------------------------
  // The two URL patterns and `re.search`

  datatype Pattern =
    | KnownShapes   // (?:youtube\.com/watch\?v=|youtu\.be/|...|m\.youtube\.com/watch\?v=)([a-zA-Z0-9_-]{11})
    | GenericQuery  // youtube\.com/.*[?&]v=([a-zA-Z0-9_-]{11})

  /** The group the pattern captures when its match starts at `p`. */
  function MatchAt(pat: Pattern, s: string, p: nat): (r: Option<string>)
    ensures r.Some? ==> IsVideoId(r.value)
  {
    match pat
    case KnownShapes => AlternativeAt(s, p, KnownMarkers)
    case GenericQuery =>
      if StartsWithAt(s, p, QueryHost) then
        match GreedyQueryPos(s, p + |QueryHost|)
        case Some(q) => QueryAt(s, q)
        case None => None
      else None
  }

  /** The leftmost start position at or after `i` where the pattern matches. */
  function LeftmostFrom(pat: Pattern, s: string, i: nat): (r: Option<nat>)
    requires i <= |s|
    decreases |s| - i
    ensures r.Some? ==> i <= r.value <= |s| && MatchAt(pat, s, r.value).Some?
    ensures r.Some? ==> forall p :: i <= p < r.value ==> MatchAt(pat, s, p).None?
    ensures r.None? ==> forall p :: i <= p <= |s| ==> MatchAt(pat, s, p).None?
  {
    if MatchAt(pat, s, i).Some? then Some(i)
    else if i == |s| then None
    else LeftmostFrom(pat, s, i + 1)
  }

  /** The pattern matches nowhere in `s`. */
  predicate MatchesNowhere(pat: Pattern, s: string) {
    forall p :: 0 <= p <= |s| ==> MatchAt(pat, s, p).None?
  }

  /** `p` is the leftmost position where the pattern matches. */
  predicate FirstMatchAt(pat: Pattern, s: string, p: nat) {
    p <= |s| && MatchAt(pat, s, p).Some? && forall p' :: 0 <= p' < p ==> MatchAt(pat, s, p').None?
  }

  /** `re.search(pattern, s).group(1)`, or None when there is no match: the
      group captured at the leftmost position where the pattern matches. */
  function Search(pat: Pattern, s: string): (r: Option<string>)
    ensures r.Some? ==> IsVideoId(r.value)
    ensures r.None? <==> MatchesNowhere(pat, s)
    ensures forall p :: FirstMatchAt(pat, s, p) ==> r == MatchAt(pat, s, p)
  {
    match LeftmostFrom(pat, s, 0)
    case Some(p) =>
      FirstMatchIsUnique(pat, s, p);
      MatchAt(pat, s, p)
    case None => None
  }

  /** At most one position is the leftmost match. */
  lemma FirstMatchIsUnique(pat: Pattern, s: string, p: nat)
    ensures FirstMatchAt(pat, s, p) ==> forall q :: FirstMatchAt(pat, s, q) ==> q == p
  {
  }

  // ---------------------------------------------------------------------
  // extract_video_id and the check in main

  /** `extract_video_id`. `urlFallback` stands for what the `urlparse` /
      `parse_qs` step returns for this input (None when it returns nothing
      or raises); that step depends on library URL splitting and is not
      modelled further. The patterns are tried in order, and the first one
      that matches anywhere decides: its group at its leftmost match. */
  function ExtractVideoId(input: string, urlFallback: Option<string>): (r: string)
    ensures IsVideoId(input) ==> r == input
    ensures !IsVideoId(input) ==>
              forall p :: FirstMatchAt(KnownShapes, input, p) ==> r == MatchAt(KnownShapes, input, p).value
    ensures !IsVideoId(input) && MatchesNowhere(KnownShapes, input) ==>
              forall p :: FirstMatchAt(GenericQuery, input, p) ==> r == MatchAt(GenericQuery, input, p).value
    ensures !IsVideoId(input) && MatchesNowhere(KnownShapes, input) && MatchesNowhere(GenericQuery, input) ==>
              r == (if urlFallback.Some? then urlFallback.value else input)
    ensures r == input || IsVideoId(r) || urlFallback == Some(r)
  {
    if IsVideoId(input) then input
    else match Search(KnownShapes, input)
      case Some(id) => id
      case None =>
        match Search(GenericQuery, input)
        case Some(id) => id
        case None =>
          match urlFallback
          case Some(v) => v
          case None => input
  }

  /** `extract_video_id` with the bare-ID test as written (see
      MatchesAnchoredIdPattern): it departs from the corrected extraction
      only on an ID followed by a final newline, which it returns unchanged. */
  function ExtractVideoIdAsWritten(input: string, urlFallback: Option<string>): (r: string)
    ensures r != ExtractVideoId(input, urlFallback) ==> r == input && IdWithFinalNewline(input)
    ensures IdWithFinalNewline(input) ==> r == input
  {
    if MatchesAnchoredIdPattern(input) then input else ExtractVideoId(input, urlFallback)
  }

  /** Extraction followed by the check in `main`: the ID to use, or None
      when `main` must stop with exit status 1. */
  function ResolveVideoId(input: string, urlFallback: Option<string>): (r: Option<string>)
    ensures r.Some? ==> IsVideoId(r.value)
    ensures IsVideoId(input) ==> r == Some(input)
    ensures r.None? ==> !IsVideoId(input)
    ensures r.Some? && urlFallback.None? ==> r.value == input || Search(KnownShapes, input).Some? || Search(GenericQuery, input).Some?
    ensures r.Some? ==> r.value == ExtractVideoId(input, urlFallback)
    ensures r.None? <==> !IsVideoId(ExtractVideoId(input, urlFallback))
    ensures !IsVideoId(input) && MatchesNowhere(KnownShapes, input) && MatchesNowhere(GenericQuery, input) && urlFallback.Some? ==>
              r == (if IsVideoId(urlFallback.value) then urlFallback else None)
  {
    var candidate := ExtractVideoId(input, urlFallback);
    if IsVideoId(candidate) then Some(candidate) else None
  }

  /** The same pipeline with the check as written: it agrees with the
      corrected pipeline except that it can hand a 12-character string
      ending in a newline to the backend. */
  function ResolveVideoIdAsWritten(input: string, urlFallback: Option<string>): (r: Option<string>)
    ensures r.Some? ==> MatchesAnchoredIdPattern(r.value)
    ensures MatchesAnchoredIdPattern(input) ==> r == Some(input)
    ensures r != ResolveVideoId(input, urlFallback) ==> r.Some? && IdWithFinalNewline(r.value)
    ensures r != ResolveVideoId(input, urlFallback) ==> r == Some(input) || r == urlFallback
  {
    var candidate := ExtractVideoIdAsWritten(input, urlFallback);
    if MatchesAnchoredIdPattern(candidate) then Some(candidate) else None
  }

  lemma AsWrittenResolvesTrailingNewline(urlFallback: Option<string>)
    ensures ResolveVideoIdAsWritten("dQw4w9WgXcQ\n", urlFallback) == Some("dQw4w9WgXcQ\n")
    ensures ResolveVideoId("dQw4w9WgXcQ\n", urlFallback) != Some("dQw4w9WgXcQ\n")
  {
    TrailingNewlinePassesCheck();
  }

  // ---------------------------------------------------------------------
  // Which URL shapes yield which ID

  /** A position holding neither `y` nor `m` cannot start any branch of the
      first pattern. */
  lemma NoKnownMarkerAt(s: string, p: nat)
    requires p < |s| && s[p] != 'y' && s[p] != 'm'
    ensures AlternativeAt(s, p, KnownMarkers).None?
  {
    forall j | 0 <= j < |KnownMarkers|
      ensures !BranchFits(s, p, KnownMarkers[j])
    {
      MarkerStartsWithYOrM(s, p, KnownMarkers[j]);
    }
    NoBranchNoMatch(s, p, KnownMarkers);
  }

  lemma MarkerStartsWithYOrM(s: string, p: nat, m: string)
    requires m in KnownMarkers
    requires p < |s| && s[p] != 'y' && s[p] != 'm'
    ensures !StartsWithAt(s, p, m)
  {
    assert m[0] == 'y' || m[0] == 'm';
    if p + |m| <= |s| {
      assert s[p..p + |m|][0] == s[p];
    }
  }

  lemma NoBranchNoMatch(s: string, p: nat, markers: seq<string>)
    requires forall j :: 0 <= j < |markers| ==> !BranchFits(s, p, markers[j])
    ensures AlternativeAt(s, p, markers).None?
  {
  }

  /** An `m` not followed by `.` cannot start any branch either. */
  lemma NoKnownMarkerAtM(s: string, p: nat)
    requires p + 1 < |s| && s[p] == 'm' && s[p + 1] != '.'
    ensures AlternativeAt(s, p, KnownMarkers).None?
  {
    forall j | 0 <= j < |KnownMarkers|
      ensures !BranchFits(s, p, KnownMarkers[j])
    {
      var m := KnownMarkers[j];
      if p + |m| <= |s| {
        assert s[p..p + |m|][0] == s[p] && s[p..p + |m|][1] == s[p + 1];
      }
    }
    NoBranchNoMatch(s, p, KnownMarkers);
  }

  /** No branch, followed by a full group, fits in the last 19 characters. */
  lemma NoKnownMarkerNearEnd(s: string, p: nat)
    requires |s| < p + 20
    ensures AlternativeAt(s, p, KnownMarkers).None?
  {
    forall j | 0 <= j < |KnownMarkers|
      ensures !BranchFits(s, p, KnownMarkers[j])
    {
      assert |KnownMarkers[j]| >= 9;
    }
    NoBranchNoMatch(s, p, KnownMarkers);
  }

  /** The first pattern matches nowhere in `s[a..b]` when that stretch holds
      no `y` and no `m`. */
  lemma NoKnownShapeIn(s: string, a: nat, b: nat)
    requires a <= b <= |s|
    requires 'y' !in s[a..b] && 'm' !in s[a..b]
    ensures forall p :: a <= p < b ==> MatchAt(KnownShapes, s, p).None?
  {
    forall p | a <= p < b
      ensures MatchAt(KnownShapes, s, p).None?
    {
      assert s[p] == s[a..b][p - a];
      NoKnownMarkerAt(s, p);
    }
  }

  /** The generic pattern can only start at a `y`. */
  lemma NoQueryHostAt(s: string, p: nat)
    requires p < |s| && s[p] != 'y'
    ensures MatchAt(GenericQuery, s, p).None?
  {
    if p + |QueryHost| <= |s| {
      assert s[p..p + |QueryHost|][0] == s[p];
    }
  }

  lemma SliceOfSlice(s: string, a: nat, b: nat, i: nat, j: nat)
    requires a <= b <= |s| && i <= j <= b - a
    ensures s[a..b][i..j] == s[a + i..a + j]
  {
    assert forall k :: 0 <= k < j - i ==> s[a..b][i..j][k] == s[a + i..a + j][k];
  }

  /** Two strings that differ at index `k` cannot both start at `p`. */
  lemma MarkerMismatch(s: string, p: nat, a: string, b: string, k: nat)
    requires StartsWithAt(s, p, a) && k < |a| && k < |b| && a[k] != b[k]
    ensures !StartsWithAt(s, p, b)
  {
    assert s[p..p + |a|][k] == s[p + k];
  }

  /** Where a later branch starts, no earlier branch does: the branches
      differ at index 0 (`m.`), 5 (`youtu.be`) or 12 (`watch`, `embed`, `v/`). */
  lemma EarlierMarkerMismatch(s: string, p: nat, j: nat, j': nat)
    requires j' < j < |KnownMarkers| && StartsWithAt(s, p, KnownMarkers[j])
    ensures !StartsWithAt(s, p, KnownMarkers[j'])
  {
    var k := if j == 4 then 0 else if j == 1 || j' == 1 then 5 else 12;
    MarkerMismatch(s, p, KnownMarkers[j], KnownMarkers[j'], k);
  }

  /** Any branch that fits at `p` decides the match there: the branches are
      mutually exclusive. */
  lemma MarkerDecides(s: string, p: nat, j: nat)
    requires j < |KnownMarkers| && BranchFits(s, p, KnownMarkers[j])
    ensures MatchAt(KnownShapes, s, p) == IdAt(s, p + |KnownMarkers[j]|)
  {
    forall j' | 0 <= j' < j
      ensures !BranchFits(s, p, KnownMarkers[j'])
    {
      EarlierMarkerMismatch(s, p, j, j');
    }
    FirstFittingBranchDecides(s, p, KnownMarkers, j);
  }

  /** The alternation takes the first branch that fits. */
  lemma {:induction false} FirstFittingBranchDecides(s: string, p: nat, markers: seq<string>, j: nat)
    requires j < |markers| && BranchFits(s, p, markers[j])
    requires forall j' :: 0 <= j' < j ==> !BranchFits(s, p, markers[j'])
    ensures AlternativeAt(s, p, markers) == IdAt(s, p + |markers[j]|)
    decreases j
  {
    if j > 0 {
      assert !BranchFits(s, p, markers[0]);
      assert markers[1..][j - 1] == markers[j];
      FirstFittingBranchDecides(s, p, markers[1..], j - 1);
    }
  }

  /** Every URL shape the first pattern lists (`youtube.com/watch?v=`,
      `youtu.be/`, `youtube.com/embed/`, `youtube.com/v/`,
      `m.youtube.com/watch?v=`) yields exactly the 11-character ID after the
      marker, whatever follows it, when the text before the marker holds no
      `y` or `m` (as `https://`, `https://www.` and `http://` do not). */
  lemma KnownUrlYieldsId(prefix: string, j: nat, id: string, tail: string, urlFallback: Option<string>)
    requires j < |KnownMarkers|
    requires 'y' !in prefix && 'm' !in prefix
    requires IsVideoId(id)
    ensures ExtractVideoId(prefix + KnownMarkers[j] + id + tail, urlFallback) == id
  {
    var m := KnownMarkers[j];
    var s := prefix + m + id + tail;
    var n := |prefix|;
    assert s[0..n] == prefix;
    NoKnownShapeIn(s, 0, n);
    assert s[n..n + |m|] == m;
    assert s[n + |m|..n + |m| + IdLength] == id;
    MarkerDecides(s, n, j);
    assert FirstMatchAt(KnownShapes, s, n);
    assert |m| >= 9;
  }

  /** The watch URL with a trailing time parameter yields the embedded ID. */
  lemma WatchUrlExample(urlFallback: Option<string>)
    ensures ExtractVideoId("https://www.youtube.com/watch?v=dQw4w9WgXcQ&t=30s", urlFallback) == "dQw4w9WgXcQ"
    ensures ResolveVideoId("https://www.youtube.com/watch?v=dQw4w9WgXcQ&t=30s", urlFallback) == Some("dQw4w9WgXcQ")
  {
    var host, id, tail := "https://www.", "dQw4w9WgXcQ", "&t=30s";
    assert host + KnownMarkers[0] + id + tail == "https://www.youtube.com/watch?v=dQw4w9WgXcQ&t=30s";
    KnownUrlYieldsId(host, 0, id, tail, urlFallback);
  }

  /** The mobile watch URL yields the embedded ID through the last branch. */
  lemma MobileUrlExample(urlFallback: Option<string>)
    ensures ExtractVideoId("https://m.youtube.com/watch?v=dQw4w9WgXcQ", urlFallback) == "dQw4w9WgXcQ"
  {
    var host, id := "https://", "dQw4w9WgXcQ";
    assert host + KnownMarkers[4] + id + "" == "https://m.youtube.com/watch?v=dQw4w9WgXcQ";
    KnownUrlYieldsId(host, 4, id, "", urlFallback);
  }

  /** A watch URL whose `v` parameter is not the first one
      (`…/watch?feature=share&v=ID&t=30s`) is caught by the second, generic
      pattern and yields the ID. `params` is the query text before `&v=`:
      it does not start with `v`, and holds no `y`, `m` or line break.
      `tail` is whatever follows the ID (such as further parameters): it
      holds no `.`, so no branch of the first pattern fits there, and no
      `v`, so no later `[?&]v=` can start there. */
  lemma QueryOrderUrlYieldsId(prefix: string, params: string, id: string, tail: string, urlFallback: Option<string>)
    requires 'y' !in prefix && 'm' !in prefix
    requires |params| > 0 && params[0] != 'v'
    requires 'y' !in params && 'm' !in params && '\n' !in params
    requires IsVideoId(id)
    requires '.' !in tail && 'v' !in tail
    ensures ExtractVideoId(prefix + "youtube.com/watch?" + params + "&v=" + id + tail, urlFallback) == id
  {
    var s := prefix + "youtube.com/watch?" + params + "&v=" + id + tail;
    QueryOrderMissesKnownShapes(prefix, params, id, tail);
    QueryOrderMatchesGeneric(prefix, params, id, tail);
    assert |s| > IdLength;
  }

  lemma QueryOrderMissesKnownShapes(prefix: string, params: string, id: string, tail: string)
    requires 'y' !in prefix && 'm' !in prefix
    requires |params| > 0 && params[0] != 'v'
    requires 'y' !in params && 'm' !in params
    requires IsVideoId(id) && '.' !in tail
    ensures MatchesNowhere(KnownShapes, prefix + "youtube.com/watch?" + params + "&v=" + id + tail)
  {
    var u := "youtube.com/watch?" + params + "&v=";
    var rest := id + tail;
    var s := prefix + u + rest;
    assert s == prefix + "youtube.com/watch?" + params + "&v=" + id + tail;
    QueryOrderHostZone(prefix, u, params, rest);
    QueryOrderQueryZone(prefix, u, params, rest);
    assert '.' !in rest by {
      IdHasNoDot(id);
    }
    assert s[|prefix| + |u|..] == rest;
    CombineZones(s, |prefix| + 12, |prefix| + |u|);
  }

  /** Before the host and inside `youtube.com/` there is no match. */
  lemma QueryOrderHostZone(prefix: string, u: string, params: string, rest: string)
    requires 'y' !in prefix && 'm' !in prefix
    requires u == "youtube.com/watch?" + params + "&v=" && |params| > 0 && params[0] != 'v'
    ensures forall p :: 0 <= p < |prefix| + 12 ==> MatchAt(KnownShapes, prefix + u + rest, p).None?
  {
    var s := prefix + u + rest;
    var n := |prefix|;
    var e := n + |u|;
    assert s[0..n] == prefix;
    NoKnownShapeIn(s, 0, n);
    assert s[n..e] == u;
    SliceOfSlice(s, n, e, 0, 19);
    assert u[0..19] == "youtube.com/watch?" + [params[0]];
    KnownShapesMissWatchQuery(s, n, params);
    SliceOfSlice(s, n, e, 0, 12);
    assert u[0..12] == QueryHost;
    KnownShapesMissInsideHost(s, n);
  }

  /** From the path to the ID there is no `y` or `m`, so no match. */
  lemma QueryOrderQueryZone(prefix: string, u: string, params: string, rest: string)
    requires u == "youtube.com/watch?" + params + "&v=" && 'y' !in params && 'm' !in params
    ensures forall p :: |prefix| + 12 <= p < |prefix| + |u| ==> MatchAt(KnownShapes, prefix + u + rest, p).None?
  {
    var s := prefix + u + rest;
    var n := |prefix|;
    var e := n + |u|;
    assert s[n..e] == u;
    SliceOfSlice(s, n, e, 12, |u|);
    assert u[12..] == "watch?" + params + "&v=";
    NoKnownShapeIn(s, n + 12, e);
  }

  /** Zones with no match before `e`, and no `.` from `e` on. */
  lemma CombineZones(s: string, h: nat, e: nat)
    requires forall p :: 0 <= p < h ==> MatchAt(KnownShapes, s, p).None?
    requires forall p :: h <= p < e ==> MatchAt(KnownShapes, s, p).None?
    requires e <= |s| && '.' !in s[e..]
    ensures MatchesNowhere(KnownShapes, s)
  {
    NoKnownShapeWithoutDot(s, e);
  }

  /** ID characters exclude the `.`. */
  lemma IdHasNoDot(id: string)
    requires AllIdChars(id)
    ensures '.' !in id
  {
  }

  /** Every branch of the first pattern holds a `.` (in `youtube.`,
      `youtu.be` or `m.`), so none fits where the text has no `.`. */
  lemma NoKnownShapeWithoutDot(s: string, e: nat)
    requires e <= |s| && '.' !in s[e..]
    ensures forall p :: e <= p <= |s| ==> MatchAt(KnownShapes, s, p).None?
  {
    forall p | e <= p <= |s|
      ensures MatchAt(KnownShapes, s, p).None?
    {
      forall j | 0 <= j < |KnownMarkers|
        ensures !BranchFits(s, p, KnownMarkers[j])
      {
        var m := KnownMarkers[j];
        var d := if j == 4 then 1 else if j == 1 then 5 else 7;
        assert m[d] == '.';
        if p + |m| <= |s| {
          assert s[p + d] == s[e..][p + d - e];
          assert s[p..p + |m|][d] == s[p + d] != '.';
        }
      }
      NoBranchNoMatch(s, p, KnownMarkers);
    }
  }

  /** No branch of the first pattern starts inside `youtube.com/` past its
      `y`: the only other candidate letter is the `m` of `com/`. */
  lemma KnownShapesMissInsideHost(s: string, n: nat)
    requires n + |QueryHost| <= |s| && s[n..n + |QueryHost|] == QueryHost
    ensures forall p :: n < p < n + |QueryHost| ==> MatchAt(KnownShapes, s, p).None?
  {
    SliceOfSlice(s, n, n + |QueryHost|, 1, 10);
    assert s[n..n + |QueryHost|][1..10] == QueryHost[1..10] == "outube.co";
    assert s[n + 1..n + 10] == "outube.co";
    assert 'y' !in "outube.co" && 'm' !in "outube.co";
    NoKnownShapeIn(s, n + 1, n + 10);
    assert s[n + 10] == s[n..n + |QueryHost|][10];
    assert s[n + 11] == s[n..n + |QueryHost|][11];
    NoKnownMarkerAtM(s, n + 10);
    NoKnownMarkerAt(s, n + 11);
    forall p | n < p < n + |QueryHost|
      ensures MatchAt(KnownShapes, s, p).None?
    {
      if p == n + 10 {
      } else if p == n + 11 {
      }
    }
  }

  lemma QueryOrderMatchesGeneric(prefix: string, params: string, id: string, tail: string)
    requires 'y' !in prefix
    requires '\n' !in params
    requires IsVideoId(id) && 'v' !in tail
    ensures var s := prefix + "youtube.com/watch?" + params + "&v=" + id + tail;
            FirstMatchAt(GenericQuery, s, |prefix|) && MatchAt(GenericQuery, s, |prefix|) == Some(id)
  {
    var n := |prefix|;
    var s := prefix + "youtube.com/watch?" + params + "&v=" + id + tail;
    var q0 := n + 18 + |params|;   // the `&` of `&v=`
    forall p | 0 <= p < n
      ensures MatchAt(GenericQuery, s, p).None?
    {
      assert s[p] == prefix[p];
      NoQueryHostAt(s, p);
    }
    assert s[n..n + |QueryHost|] == QueryHost;
    assert s[q0 + 3..q0 + 3 + IdLength] == id;
    assert s[q0 + 3 + IdLength..] == tail;
    forall k | n + |QueryHost| <= k < q0
      ensures s[k] != '\n'
    {
      if k >= n + 18 {
        assert s[k] == params[k - n - 18];
      }
    }
    GreedySettlesOnLast(s, n + |QueryHost|, q0, id);
  }

  /** At the `youtube.com/watch?` host, no branch of the first pattern fits
      when the query does not start with `v`. */
  lemma KnownShapesMissWatchQuery(s: string, n: nat, params: string)
    requires |params| > 0 && params[0] != 'v'
    requires n + 19 <= |s| && s[n..n + 19] == "youtube.com/watch?" + [params[0]]
    ensures MatchAt(KnownShapes, s, n).None?
  {
    var a := "youtube.com/watch?" + [params[0]];
    MarkerMismatch(s, n, a, KnownMarkers[0], 18);
    MarkerMismatch(s, n, a, KnownMarkers[1], 5);
    MarkerMismatch(s, n, a, KnownMarkers[2], 12);
    MarkerMismatch(s, n, a, KnownMarkers[3], 12);
    MarkerMismatch(s, n, a, KnownMarkers[4], 0);
    NoBranchNoMatch(s, n, KnownMarkers);
  }

  /** Greedy `.*` from `b` settles on `q0` when `?v=` or `&v=` plus an ID
      sits at `q0`, there is no line break in between, and no `v` after the
      ID: no later `[?&]v=` can start inside the ID or after it. */
  lemma GreedySettlesOnLast(s: string, b: nat, q0: nat, id: string)
    requires b <= q0 && q0 + 3 + IdLength <= |s|
    requires (s[q0] == '?' || s[q0] == '&') && s[q0 + 1] == 'v' && s[q0 + 2] == '='
    requires IsVideoId(id) && s[q0 + 3..q0 + 3 + IdLength] == id
    requires 'v' !in s[q0 + 3 + IdLength..]
    requires forall k :: b <= k < q0 ==> s[k] != '\n'
    ensures GreedyQueryPos(s, b) == Some(q0)
    ensures QueryAt(s, q0) == Some(id)
  {
    var t := q0 + 3 + IdLength;
    assert QueryCandidate(s, b, q0);
    forall q | q0 < q <= |s|
      ensures QueryAt(s, q).None?
    {
      if q + 3 <= |s| {
        if q < q0 + 3 {
        } else if q < t {
          assert s[q] == id[q - q0 - 3];
        } else {
          assert s[q + 1] == s[t..][q + 1 - t];
        }
      }
    }
  }

  /** A shared watch link with the `v` parameter in the middle of the query. */
  lemma SharedWatchUrlExample(urlFallback: Option<string>)
    ensures ExtractVideoId("https://www.youtube.com/watch?feature=share&v=dQw4w9WgXcQ&t=30s", urlFallback) == "dQw4w9WgXcQ"
  {
    SharedWatchUrlPieces();
    SharedWatchUrlPiecesQualify();
    QueryOrderUrlYieldsId("https://www.", "feature=share", "dQw4w9WgXcQ", "&t=30s", urlFallback);
  }

  lemma SharedWatchUrlPieces()
    ensures "https://www." + "youtube.com/watch?" + "feature=share" + "&v=" + "dQw4w9WgXcQ" + "&t=30s"
            == "https://www.youtube.com/watch?feature=share&v=dQw4w9WgXcQ&t=30s"
  {
    var host, params, id, tail := "https://www.", "feature=share", "dQw4w9WgXcQ", "&t=30s";
    var u := "https://www.youtube.com/watch?feature=share&v=";
    assert host + "youtube.com/watch?" + params + "&v=" == u;
    assert u + id + tail == "https://www.youtube.com/watch?feature=share&v=dQw4w9WgXcQ&t=30s";
  }

  lemma SharedWatchUrlPiecesQualify()
    ensures IsVideoId("dQw4w9WgXcQ")
    ensures 'y' !in "https://www." && 'm' !in "https://www."
    ensures 'y' !in "feature=share" && 'm' !in "feature=share" && '\n' !in "feature=share"
    ensures '.' !in "&t=30s" && 'v' !in "&t=30s"
  {
  }

  /** The first pattern outranks the second even when the second matches
      earlier in the string: here the generic pattern matches at the very
      start, yet the `youtu.be/` link later on decides the result. */
  lemma KnownShapeBeatsEarlierQuery(id: string, urlFallback: Option<string>)
    requires IsVideoId(id)
    ensures MatchAt(GenericQuery, "youtube.com/?v=AAAAAAAAAAA youtu.be/" + id, 0).Some?
    ensures ExtractVideoId("youtube.com/?v=AAAAAAAAAAA youtu.be/" + id, urlFallback) == id
  {
    var a := "AAAAAAAAAAA";
    var query := "?v=" + a + " ";
    var s := QueryHost + query + (KnownMarkers[1] + id);
    assert s == "youtube.com/?v=AAAAAAAAAAA youtu.be/" + id;
    EarlyQueryMatchesGeneric(a, query, s);
    LaterLinkMatchesKnownShape(query, id, s);
  }

  /** In the string above, greedy `.*` finds `?v=` right after the host. */
  lemma EarlyQueryMatchesGeneric(a: string, query: string, s: string)
    requires a == "AAAAAAAAAAA" && query == "?v=" + a + " "
    requires |s| >= 27 && s[0..27] == QueryHost + query
    ensures MatchAt(GenericQuery, s, 0).Some?
  {
    SliceOfSlice(s, 0, 27, 0, 12);
    assert s[0..12] == QueryHost;
    SliceOfSlice(s, 0, 27, 12, 27);
    assert s[12..27] == query;
    SliceOfSlice(s, 12, 27, 3, 14);
    assert s[15..26] == query[3..14] == a;
    assert IsVideoId(a);
    assert s[12] == query[0] == '?' && s[13] == query[1] == 'v' && s[14] == query[2] == '=';
    assert IdAt(s, 15) == Some(a);
    assert QueryCandidate(s, 12, 12);
  }

  /** In the string above, the first pattern's leftmost match is the
      `youtu.be/` link at 27. */
  lemma LaterLinkMatchesKnownShape(query: string, id: string, s: string)
    requires query == "?v=AAAAAAAAAAA " && IsVideoId(id)
    requires s == QueryHost + query + (KnownMarkers[1] + id)
    ensures FirstMatchAt(KnownShapes, s, 27) && MatchAt(KnownShapes, s, 27) == Some(id)
  {
    NoKnownShapeBeforeLink(query, id, s);
    assert |s| == 47;
    assert s[27..] == KnownMarkers[1] + id;
    SliceOfSlice(s, 27, 47, 0, 9);
    SliceOfSlice(s, 27, 47, 9, 20);
    assert s[27..36] == KnownMarkers[1];
    assert s[36..47] == id;
    MarkerDecides(s, 27, 1);
  }

  lemma NoKnownShapeBeforeLink(query: string, id: string, s: string)
    requires query == "?v=AAAAAAAAAAA "
    requires s == QueryHost + query + (KnownMarkers[1] + id)
    ensures forall p :: 0 <= p < 27 ==> MatchAt(KnownShapes, s, p).None?
  {
    assert s[0..12] == QueryHost;
    assert forall p :: 0 <= p < 12 ==> MatchAt(KnownShapes, s, p).None? by {
      assert s[12..27] == query;
      SliceOfSlice(s, 12, 27, 0, 1);
      assert s[0..13] == QueryHost + "?";
      KnownShapesMissQueryHost(s);
      KnownShapesMissInsideHost(s, 0);
    }
    assert forall p :: 12 <= p < 27 ==> MatchAt(KnownShapes, s, p).None? by {
      assert s[12..27] == query;
      assert 'y' !in query && 'm' !in query;
      NoKnownShapeIn(s, 12, 27);
    }
  }

  /** No branch of the first pattern fits at a bare `youtube.com/?`. */
  lemma KnownShapesMissQueryHost(s: string)
    requires 13 <= |s| && s[0..13] == "youtube.com/?"
    ensures MatchAt(KnownShapes, s, 0).None?
  {
    var a := "youtube.com/?";
    MarkerMismatch(s, 0, a, KnownMarkers[0], 12);
    MarkerMismatch(s, 0, a, KnownMarkers[1], 5);
    MarkerMismatch(s, 0, a, KnownMarkers[2], 12);
    MarkerMismatch(s, 0, a, KnownMarkers[3], 12);
    MarkerMismatch(s, 0, a, KnownMarkers[4], 0);
    NoBranchNoMatch(s, 0, KnownMarkers);
  }

  /** When a URL pattern matches, extraction yields a valid 11-character
      ID, so the check in `main` always accepts it. */
  lemma PatternMatchPassesCheck(input: string, urlFallback: Option<string>)
    ensures Search(KnownShapes, input).Some? || Search(GenericQuery, input).Some? ==>
              IsVideoId(ExtractVideoId(input, urlFallback)) &&
              ResolveVideoId(input, urlFallback) == Some(ExtractVideoId(input, urlFallback))
  {
  }

  /** When neither the bare-ID test, a pattern nor the URL-parse step yields
      anything, the input comes back unchanged, and the check rejects it
      unless it is itself a valid ID. */
  lemma NoMatchReturnsInput(input: string)
    requires Search(KnownShapes, input).None? && Search(GenericQuery, input).None?
    ensures ExtractVideoId(input, None) == input
    ensures ResolveVideoId(input, None).Some? <==> IsVideoId(input)
  {
  }
}
